=== FILE: README.md ===
# Neon Pong: a Dafny model of the game loop

This project models the simulation core of a browser Pong game with two
paddles. The core is `components/PongGame.tsx`, with its records in
`types.ts`. The player's paddle runs along the bottom and the opponent's along
the top. A ball bounces off the left and right walls. A point is scored when
the ball crosses the top or bottom line.

The model is a pure transition system over immutable records of exact reals:

- `types.dfy` (module `Types`) holds the records. These are `Ball`, `Paddle`,
  the `GameState` enumeration, the drawing surface `Canvas` and the whole
  state `Game`.
- `types.dfy` also holds `Trig`, a pair of uninterpreted sine and cosine
  functions. Its predicate `Lawful` has two laws: `sin² + cos² = 1`, and
  cosine is positive strictly between -π/4 and π/4.
- `physics.dfy` (module `Physics`) holds one frame, `update`. Each phase is a
  separate function, and the phases run in the source's order: player
  movement, opponent tracking, the Euler step of the ball, the side walls, the
  player's paddle, the opponent's paddle, and scoring with the round reset.
- `control.dfy` (module `Control`) holds surface sizing (`initGame`), the
  serve (`launchBall`), the key handlers with the Menu → Playing transition,
  and the delayed relaunch after a point. It also defines events, runs of
  events, and the invariants that hold along every run.
- `scenarios.dfy` (module `Scenarios`) works through concrete frames on an
  800 × 600 surface.

The model has no clocks or randomness. The three `Math.random` draws of a
serve are a `Draws` parameter, each a real in [0, 1). The one-second
`setTimeout` after a point is modelled as a counter, `Game.pending`: it goes
up by one for each scheduled relaunch, and a `Relaunched` event fires one of
them.

Three consequences of the code that are easy to miss:

- A ball returned by the player's paddle is placed at
  `player.y - radius - 1`. For a ball falling onto the centre of the paddle
  from (450, 570) on a 600-high surface, that is y = 561
  (`Scenarios.CentreHitOnPlayer`).
- In exact arithmetic the serve's |dx| lies in [2, 4), so 4 is never reached.
  With doubles, a draw just below 1 can round `mag * 2 + 2` up to exactly 4.
- A resize during play recentres the ball at rest and schedules no relaunch.
  Enter or space does nothing once the game is Playing. So on a surface at
  least 80 high the ball stays still until a relaunch from an earlier point
  fires, if one is pending (`Control.ResizeStallsPlay`).

## Model

| member | source | states |
|---|---|---|
| Physics.Clamp | components/PongGame.tsx:81-83 | the clamped paddle always fits left of the right edge; it also starts at or right of 0 when the surface is at least a paddle wide; a position already inside is kept; a paddle wider than the surface, or one pushed past the right edge, sits flush right |
| Physics.ClampIdempotent | components/PongGame.tsx:81-83 | clamping twice is the same as clamping once, for any surface width |
| Physics.MovePlayer | components/PongGame.tsx:72-83 | the player's new x is the old x moved by the net arrow push, clamped; the push is -8 for left alone, +8 for right alone, and 0 for both or neither; afterwards the paddle lies within the surface |
| Physics.MoveAi | components/PongGame.tsx:85-98 | within 10 of the paddle centre the opponent does not move before clamping; beyond that it moves exactly 5.5 toward ball.x; it is then clamped to the same bounds as the player |
| Physics.AiClosesIn | components/PongGame.tsx:87-94 | away from the edges and outside the dead zone, the distance from the opponent's centre to the ball shrinks by exactly 5.5 |
| Physics.MoveBall | components/PongGame.tsx:100-102 | the ball's position advances by exactly its velocity, and nothing else changes |
| Physics.MoveBallReversible | components/PongGame.tsx:100-102 | a step with the velocity negated brings the ball back to where it started |
| Physics.BounceWalls | components/PongGame.tsx:104-112 | if the surface is at least one ball wide, the ball ends within [radius, width - radius], a ball that crossed a side is placed on the wall it crossed (x = radius or x = width - radius), and dx is negated exactly when a side was crossed; on a narrower surface a ball that crossed the left side is caught by both walls, ending at width - radius with dx keeping its sign; nothing else changes |
| Physics.BounceWallsSettles | components/PongGame.tsx:104-112 | on a surface at least one ball wide a bounced ball no longer crosses a side, so a second bounce changes nothing |
| Physics.CollidePoint | components/PongGame.tsx:122-124 | the normalised hit point is strictly inside (-1, 1); its sign matches the side of the paddle centre that was hit |
| Physics.CollidePointMonotone | components/PongGame.tsx:123-126 | the hit point never decreases as the ball strikes further right |
| Physics.Angle | components/PongGame.tsx:126 | the bounce angle is strictly within ±π/4 |
| Physics.AngleMonotone | components/PongGame.tsx:122-126 | the bounce angle never decreases as the ball strikes further right |
| Physics.Deflect | components/PongGame.tsx:126-134 | the new (dx, dy) has squared magnitude equal to the pre-hit speed squared; dy has the sign of the direction; speed grows by exactly 0.2; the ball moves to the landing row |
| Physics.HitPlayer | components/PongGame.tsx:114-135 | with no overlap the ball is untouched; on a hit the speed grows by exactly 0.2, the ball is placed at player.y - radius - 1 with dy < 0, and the velocity's magnitude equals the pre-hit speed |
| Physics.HitAi | components/PongGame.tsx:137-155 | with no overlap the ball is untouched; on a hit the speed grows by exactly 0.2, the ball is placed at ai.y + ai.height + radius + 1 with dy > 0, and the velocity's magnitude equals the pre-hit speed |
| Physics.ResetRound | components/PongGame.tsx:167-178 | the ball is at (width/2, height/2) with dx = dy = 0 and speed 7, its radius is kept, exactly one relaunch is scheduled, and nothing else changes |
| Physics.ScorePoint | components/PongGame.tsx:157-164 | the player scores exactly when y - radius < 0; otherwise the opponent scores exactly when y + radius > height; at most one score changes, by one; a point resets the round and changes nothing but the ball, the scores and the pending relaunches; with no point nothing changes |
| Physics.Advance | components/PongGame.tsx:72-155 | the paddles move as MovePlayer and MoveAi say (the opponent reads ball.x before the ball moves); the ball keeps its radius; the speed grows by 0, 0.2 or 0.4; a ball that after its Euler step and the wall bounce touches no paddle is exactly the bounced ball; on a surface at least one ball wide the ball ends within [radius, width - radius] |
| Physics.Update | components/PongGame.tsx:65-165 | outside Playing nothing changes; in Playing the paddles end where MovePlayer and MoveAi put them, within the surface; no score decreases, at most one point is scored per frame, each point schedules exactly one relaunch and recentres the ball at rest at speed 7, and without a point the speed does not fall and the ball is the one the paddle and ball phases produced |
| Physics.NoDoubleCount | components/PongGame.tsx:157-175 | after a frame that scores, on a surface at least 80 high, the next frame scores nothing before the relaunch |
| Control.InitGame | components/PongGame.tsx:22-56 | sets the new surface size; the ball is at the centre, at rest, at speed 7; both paddles are centred on their rows; scores, game state and held keys survive; the result satisfies the state invariant |
| Control.Mount | components/PongGame.tsx:11-56 | the first sizing gives a valid state in Menu with both scores 0, no keys held, no relaunch pending, and the ball at rest |
| Control.LaunchBall | components/PongGame.tsx:58-63 | 2 <= abs(dx) < 4 and dy is 5 or -5; dx is positive exactly when the first draw exceeds 0.5, and dy exactly when the second does; position and speed are kept |
| Control.DrawsFor | components/PongGame.tsx:58-63 | every velocity LaunchBall allows comes from some draws, so all four direction combinations and every magnitude in [2, 4) occur |
| Control.KeyDown | components/PongGame.tsx:258-265 | the key is marked held; the state changes exactly when Enter or space is pressed in Menu, which moves to Playing and serves the ball; any other key only marks itself held |
| Control.KeyUp | components/PongGame.tsx:266-268 | the released key is no longer held; every other key and every other field is unchanged |
| Control.PressReleaseRestores | components/PongGame.tsx:258-268 | pressing and then releasing a key that was not held, and that does not start play, leaves the game as it was |
| Control.Relaunch | components/PongGame.tsx:177-178 | a pending relaunch serves the ball in place exactly as LaunchBall does with the same draws, so its direction follows the first two draws, within the serve's bounds, and uses up one pending relaunch; with none pending nothing changes |
| Control.ApplyKeepsValid | components/PongGame.tsx:22-268 | every event keeps the state invariant: mode is Menu or Playing, sizes are fixed, paddles sit on their rows, speed is at least 7, and paddles stay inside a surface at least 100 wide |
| Control.RunKeepsValid | components/PongGame.tsx:22-268 | every run of events keeps the state invariant |
| Control.MountedRun | components/PongGame.tsx:11-268 | after mount the game is never Paused or GameOver; on a surface at least 100 wide both paddles stay inside it |
| Control.ScoresNeverDecrease | components/PongGame.tsx:157-164 | no run of events lowers either score |
| Control.PlayingIsFinal | components/PongGame.tsx:258-265 | no run of events leads from Playing back to another state |
| Control.QuietKeepsStalled | components/PongGame.tsx:65-165 | a ball at rest on the centre row of a surface at least 80 high stays at rest through any frame or key event, and no score changes |
| Control.StalledRun | components/PongGame.tsx:65-165 | the same holds for any run of frames and key events |
| Control.ResizeStallsPlay | components/PongGame.tsx:22-56 | a resize during play with no relaunch pending leaves the ball at rest and the scores unchanged through any later run of frames and key events |
| Scenarios.CentreHitOnPlayer | components/PongGame.tsx:114-135 | a ball falling at 5 onto the centre of the player's paddle goes back up, lands at y = 561, and reaches speed 7.2 |
| Scenarios.EnterServesFromCentre | components/PongGame.tsx:258-265 | Enter on a fresh 800 × 600 surface starts play from (400, 300) at speed 7, with dx in (-4, -2] or [2, 4) and dy = ±5 |
| Scenarios.TopLineScoresOnce | components/PongGame.tsx:157-178 | a ball above the top line gives the player exactly one point and one relaunch; the next frame scores nothing |
| Scenarios.ShortSurfaceScoresTwice | components/PongGame.tsx:114-175 | on a valid 800 × 40 surface a ball above the top line scores, and the reset ball, which overlaps the player's paddle, is placed above the top line and scores again on the very next frame |

## Left out

- Drawing (`draw`, lines 181-230) and the JSX overlay only read state to produce pixels, and change nothing.
- The animation-frame loop and the React hooks and effects (lines 232-277) are not modelled. Neither is registering the resize and key listeners. A frame is the `Frame` event, a resize is the `Resize` event (a call of `InitGame`), and a key event is `KeyPress` or `KeyRelease`.
- The guards that return early when the canvas or container element does not exist yet (lines 23, 66, 168) are not modelled. The model starts from a mounted surface, and `Mount` is the first sizing.
- The one-second wait before a relaunch (line 178) is not modelled. Only the count of scheduled relaunches is kept. An unmount that cancels the frame loop is not modelled either.
- Floating-point rounding is not modelled: every number is an exact real. `Math.PI` is 3.141592653589793, the shortest decimal that reads back as that double (its exact value is 3.14159265358979311599…).
- Sine and cosine are uninterpreted. Only the two laws in `Lawful` are assumed about them.
- `Math.random` is not modelled. Its draws are the `Draws` parameter.
- Key presses are a set of held key names. A key that was never pressed is not held, which matches the undefined (falsy) map entry in the code.
- The theme customiser, the app shell and the image-generation service call are not modelled. They are UI and network code that never touch the game state.
- Physics.Deflect: the magnitude and sign facts hold only under `Lawful`, because sine and cosine are uninterpreted.
- Physics.HitPlayer: the magnitude and sign facts hold only under `Lawful`, because sine and cosine are uninterpreted.
- Physics.HitAi: the magnitude and sign facts hold only under `Lawful`, because sine and cosine are uninterpreted.
- Physics.Update: does not restate the velocity after a paddle hit. When both paddles fire in one frame, the opponent's hit overrides the player's. The per-paddle facts are stated on `HitPlayer` and `HitAi`.
- Scenarios.CentreHitOnPlayer: does not claim dx = 0, because `Lawful` does not include sin(0) = 0.
- Physics.NoDoubleCount: is proved for surfaces at least 80 high; on some lower surfaces (800 × 40, `Scenarios.ShortSurfaceScoresTwice`) the reset ball overlaps a paddle, is placed beyond a scoring line and a point is scored on two frames in a row.
- Control.LaunchBall: |dx| < 4 holds in exact reals only; with doubles a draw of 1 − 2⁻⁵³ makes `mag * 2 + 2` round to exactly 4.

=== FILE: control.dfy ===
/** Everything around the frame: surface initialisation (`initGame`), the
    ball launch (`launchBall`), the key handlers and the Menu to Playing
    transition, the delayed relaunch after a point, and runs of events. */
module Control {
  import opened Types
  import opened Physics

  const BallRadius: real := 8.0
  const PaddleWidth: real := 100.0
  const PaddleHeight: real := 12.0
  const PlayerInset: real := 30.0
  const AiRow: real := 20.0

  // ---------------------------------------------------------------------
  // Initialisation
  // ---------------------------------------------------------------------

  /** The state before the surface is first sized: the initial values of
      the ball and paddle records and the default 300 by 150 canvas. */
  const Initial: Game :=
    Game(Menu, Canvas(300, 150),
         Ball(0.0, 0.0, 0.0, 0.0, BallRadius, 6.0),
         Paddle(0.0, 0.0, PaddleWidth, PaddleHeight, 0),
         Paddle(0.0, 0.0, PaddleWidth, PaddleHeight, 0),
         {}, 0)

  /** The shape facts every reachable state keeps: the game is in Menu or
      Playing, ball and paddle sizes are the initial ones, the paddles sit
      on their rows, the ball never drops below base speed, and on a
      surface at least one paddle wide both paddles lie inside it. */
  predicate Valid(g: Game) {
    (g.mode == Menu || g.mode == Playing) &&
    g.ball.radius == BallRadius && g.ball.speed >= BaseSpeed &&
    g.player.width == PaddleWidth && g.player.height == PaddleHeight &&
    g.ai.width == PaddleWidth && g.ai.height == PaddleHeight &&
    g.player.y == g.canvas.H() - PlayerInset && g.ai.y == AiRow &&
    (PaddleWidth <= g.canvas.W() ==> InLane(g.player, g.canvas) && InLane(g.ai, g.canvas))
  }

  /** Sizing the surface (on mount and on every resize): the ball is put
      at rest in the centre at base speed, both paddles are centred on
      their rows. Scores, paddle heights, the game state and the held keys
      survive, so a resize mid-rally costs nobody a point. */
  function InitGame(g: Game, w: nat, h: nat): (r: Game)
    ensures r.canvas == Canvas(w, h)
    ensures r.mode == g.mode && r.held == g.held && r.pending == g.pending
    ensures r.player.score == g.player.score && r.ai.score == g.ai.score
    ensures r.ball == Ball(w as real / 2.0, h as real / 2.0, 0.0, 0.0, BallRadius, BaseSpeed)
    ensures Center(r.player) == r.canvas.W() / 2.0 && Center(r.ai) == r.canvas.W() / 2.0
    ensures ((g.mode == Menu || g.mode == Playing) &&
             g.player.height == PaddleHeight && g.ai.height == PaddleHeight) ==> Valid(r)
  {
    var cx := w as real / 2.0;
    var cy := h as real / 2.0;
    g.(canvas := Canvas(w, h),
       ball := Ball(cx, cy, 0.0, 0.0, BallRadius, BaseSpeed),
       player := g.player.(x := cx - 50.0, y := h as real - PlayerInset, width := PaddleWidth),
       ai := g.ai.(x := cx - 50.0, y := AiRow, width := PaddleWidth))
  }

  /** The first sizing of the surface when the view appears. */
  function Mount(w: nat, h: nat): (r: Game)
    ensures Valid(r)
    ensures r.mode == Menu && r.held == {} && r.pending == 0
    ensures r.player.score == 0 && r.ai.score == 0
    ensures r.ball.dx == 0.0 && r.ball.dy == 0.0
  {
    InitGame(Initial, w, h)
  }

  // ---------------------------------------------------------------------
  // Launch
  // ---------------------------------------------------------------------

  /** Serves the ball: a horizontal direction and a vertical direction,
      each from one draw (above one half means positive), a horizontal
      magnitude in [2, 4) from a third draw, and vertical magnitude 5. The
      position and speed are left alone. */
  function LaunchBall(b: Ball, d: Draws): (c: Ball)
    ensures c == b.(dx := c.dx, dy := c.dy)
    ensures 2.0 <= Abs(c.dx) < 4.0
    ensures c.dy == 5.0 || c.dy == -5.0
    ensures c.dx > 0.0 <==> d.dirX > 0.5
    ensures c.dy > 0.0 <==> d.dirY > 0.5
  {
    var dirX := if d.dirX > 0.5 then 1.0 else -1.0;
    var dirY := if d.dirY > 0.5 then 1.0 else -1.0;
    b.(dx := (d.mag * 2.0 + 2.0) * dirX, dy := 5.0 * dirY)
  }

  /** Every launch velocity the contract of LaunchBall allows is reached by
      some draws: these ones. */
  function DrawsFor(dx: real, dy: real): (d: Draws)
    requires 2.0 <= Abs(dx) < 4.0
    requires dy == 5.0 || dy == -5.0
    ensures forall b :: LaunchBall(b, d) == b.(dx := dx, dy := dy)
  {
    Draws(if dx > 0.0 then 0.75 else 0.25,
          if dy > 0.0 then 0.75 else 0.25,
          (Abs(dx) - 2.0) / 2.0)
  }

  // ---------------------------------------------------------------------
  // Keys
  // ---------------------------------------------------------------------

  predicate StartKey(key: string) {
    key == "Enter" || key == " "
  }

  /** A key goes down: it is marked held, and in Menu the Enter or space
      key starts play and serves the ball. Nothing else changes. */
  function KeyDown(g: Game, key: string, d: Draws): (r: Game)
    ensures r.held == g.held + {key}
    ensures r.mode != g.mode <==> g.mode == Menu && StartKey(key)
    ensures g.mode == Menu && StartKey(key) ==>
              r == g.(mode := Playing, held := r.held, ball := LaunchBall(g.ball, d))
    ensures !(g.mode == Menu && StartKey(key)) ==> r == g.(held := r.held)
  {
    var g1 := g.(held := g.held + {key});
    if g.mode == Menu && StartKey(key) then
      g1.(mode := Playing, ball := LaunchBall(g1.ball, d))
    else g1
  }

  /** A key goes up: it is no longer held, and every other key keeps its
      state. */
  function KeyUp(g: Game, key: string): (r: Game)
    ensures key !in r.held
    ensures forall k :: k != key ==> (k in r.held <==> k in g.held)
    ensures r == g.(held := r.held)
  {
    g.(held := g.held - {key})
  }

  /** Pressing and releasing a key that was not held, and that does not
      start play, leaves the game as it was. */
  lemma PressReleaseRestores(g: Game, key: string, d: Draws)
    requires key !in g.held
    requires !(g.mode == Menu && StartKey(key))
    ensures KeyUp(KeyDown(g, key, d), key) == g
  {}

  // ---------------------------------------------------------------------
  // Relaunch after a point
  // ---------------------------------------------------------------------

  /** A relaunch scheduled by a round reset fires: the ball is served
      again. With nothing scheduled the event does nothing. */
  function Relaunch(g: Game, d: Draws): (r: Game)
    ensures g.pending == 0 ==> r == g
    ensures g.pending > 0 ==> r.pending == g.pending - 1
    ensures g.pending > 0 ==> r == g.(ball := r.ball, pending := r.pending)
    ensures g.pending > 0 ==> r.ball.x == g.ball.x && r.ball.y == g.ball.y && r.ball.speed == g.ball.speed
    ensures g.pending > 0 ==> 2.0 <= Abs(r.ball.dx) < 4.0 && Abs(r.ball.dy) == 5.0
    ensures g.pending > 0 ==> r.ball == LaunchBall(g.ball, d)
    ensures g.pending > 0 ==> (r.ball.dx > 0.0 <==> d.dirX > 0.5) && (r.ball.dy > 0.0 <==> d.dirY > 0.5)
  {
    if g.pending == 0 then g
    else g.(ball := LaunchBall(g.ball, d), pending := g.pending - 1)
  }

  // ---------------------------------------------------------------------
  // Events and runs
  // ---------------------------------------------------------------------

  datatype Event =
    | Resize(w: nat, h: nat)
    | KeyPress(key: string, draws: Draws)
    | KeyRelease(key: string)
    | Frame
    | Relaunched(draws: Draws)

  function Apply(g: Game, e: Event, t: Trig): Game {
    match e
    case Resize(w, h) => InitGame(g, w, h)
    case KeyPress(k, d) => KeyDown(g, k, d)
    case KeyRelease(k) => KeyUp(g, k)
    case Frame => Update(g, t)
    case Relaunched(d) => Relaunch(g, d)
  }

  function Run(g: Game, evs: seq<Event>, t: Trig): Game
    decreases |evs|
  {
    if |evs| == 0 then g else Run(Apply(g, evs[0], t), evs[1..], t)
  }

  lemma ApplyKeepsValid(g: Game, e: Event, t: Trig)
    requires Valid(g)
    ensures Valid(Apply(g, e, t))
  {}

  /** Every event keeps the state valid, so every run does. */
  lemma {:induction false} RunKeepsValid(g: Game, evs: seq<Event>, t: Trig)
    requires Valid(g)
    ensures Valid(Run(g, evs, t))
    decreases |evs|
  {
    if |evs| > 0 {
      ApplyKeepsValid(g, evs[0], t);
      RunKeepsValid(Apply(g, evs[0], t), evs[1..], t);
    }
  }

  /** From mount on, the game is only ever in Menu or Playing, and on a
      surface at least one paddle wide both paddles stay inside it. */
  lemma MountedRun(w: nat, h: nat, evs: seq<Event>, t: Trig)
    ensures Run(Mount(w, h), evs, t).mode in {Menu, Playing}
    ensures var r := Run(Mount(w, h), evs, t);
            PaddleWidth <= r.canvas.W() ==> InLane(r.player, r.canvas) && InLane(r.ai, r.canvas)
  {
    RunKeepsValid(Mount(w, h), evs, t);
  }

  /** Scores never go down, whatever happens. */
  lemma {:induction false} ScoresNeverDecrease(g: Game, evs: seq<Event>, t: Trig)
    ensures Run(g, evs, t).player.score >= g.player.score
    ensures Run(g, evs, t).ai.score >= g.ai.score
    decreases |evs|
  {
    if |evs| > 0 {
      ScoresNeverDecrease(Apply(g, evs[0], t), evs[1..], t);
    }
  }

  /** Once playing, always playing: no event leads back to Menu. */
  lemma {:induction false} PlayingIsFinal(g: Game, evs: seq<Event>, t: Trig)
    requires g.mode == Playing
    ensures Run(g, evs, t).mode == Playing
    decreases |evs|
  {
    if |evs| > 0 {
      PlayingIsFinal(Apply(g, evs[0], t), evs[1..], t);
    }
  }

  // ---------------------------------------------------------------------
  // A resize during play
  // ---------------------------------------------------------------------

  /** Events that neither resize the surface nor fire a relaunch. */
  predicate Quiet(e: Event) {
    e.Frame? || e.KeyPress? || e.KeyRelease?
  }

  /** Playing, with the ball at rest on the centre row of a surface at
      least 80 high, and no relaunch scheduled. */
  predicate Stalled(g: Game) {
    Valid(g) && g.mode == Playing && g.pending == 0 && g.canvas.height >= 80 &&
    g.ball.dx == 0.0 && g.ball.dy == 0.0 && g.ball.y == g.canvas.H() / 2.0
  }

  lemma QuietKeepsStalled(g: Game, e: Event, t: Trig)
    requires Stalled(g) && Quiet(e)
    ensures Stalled(Apply(g, e, t))
    ensures Apply(g, e, t).player.score == g.player.score
    ensures Apply(g, e, t).ai.score == g.ai.score
  {}

  /** A resize while playing puts the ball at rest, and nothing but a
      relaunch already scheduled by an earlier point serves it again: no
      run of frames and key presses moves it or changes a score. */
  lemma {:induction false} ResizeStallsPlay(g: Game, w: nat, h: nat, evs: seq<Event>, t: Trig)
    requires Valid(g) && g.mode == Playing && g.pending == 0
    requires h >= 80
    requires forall i :: 0 <= i < |evs| ==> Quiet(evs[i])
    ensures Run(InitGame(g, w, h), evs, t).ball.dx == 0.0
    ensures Run(InitGame(g, w, h), evs, t).ball.dy == 0.0
    ensures Run(InitGame(g, w, h), evs, t).player.score == g.player.score
    ensures Run(InitGame(g, w, h), evs, t).ai.score == g.ai.score
  {
    StalledRun(InitGame(g, w, h), evs, t);
  }

  lemma {:induction false} StalledRun(g: Game, evs: seq<Event>, t: Trig)
    requires Stalled(g)
    requires forall i :: 0 <= i < |evs| ==> Quiet(evs[i])
    ensures Stalled(Run(g, evs, t))
    ensures Run(g, evs, t).player.score == g.player.score
    ensures Run(g, evs, t).ai.score == g.ai.score
    decreases |evs|
  {
    if |evs| > 0 {
      QuietKeepsStalled(g, evs[0], t);
      StalledRun(Apply(g, evs[0], t), evs[1..], t);
    }
  }
}

=== FILE: physics.dfy ===
/** One frame of the simulation (`update` in components/PongGame.tsx) and
    the round reset it triggers on a point. Each phase of the frame is its
    own function so that its contract can be stated where it happens; the
    phases run in the source's order: player, opponent, ball movement,
    side walls, player paddle, opponent paddle, scoring. */
module Physics {
  import opened Types

  const PlayerSpeed: real := 8.0
  const AiSpeed: real := 5.5
  const DeadZone: real := 10.0
  const SpeedUp: real := 0.2
  const BaseSpeed: real := 7.0

  const LeftKey: string := "ArrowLeft"
  const RightKey: string := "ArrowRight"

  // ---------------------------------------------------------------------
  // Paddles
  // ---------------------------------------------------------------------

  /** Keeps a paddle of width `w` inside a surface `limit` wide: first the
      left edge, then the right edge, so a paddle wider than the surface
      ends up flush with the right edge (at a negative x). */
  function Clamp(x: real, w: real, limit: real): (r: real)
    ensures r + w <= limit
    ensures w <= limit ==> 0.0 <= r
    ensures 0.0 <= x && x + w <= limit ==> r == x
    ensures w <= limit && x < 0.0 ==> r == 0.0
    ensures w > limit || x + w > limit ==> r == limit - w
  {
    var a := if x < 0.0 then 0.0 else x;
    if a + w > limit then limit - w else a
  }

  /** Clamping an already clamped position changes nothing. */
  lemma ClampIdempotent(x: real, w: real, limit: real)
    ensures Clamp(Clamp(x, w, limit), w, limit) == Clamp(x, w, limit)
  {}

  /** The net horizontal push the held arrow keys ask for. */
  function Steer(held: set<string>): real {
    if LeftKey in held && RightKey !in held then -PlayerSpeed
    else if RightKey in held && LeftKey !in held then PlayerSpeed
    else 0.0
  }

  /** Player movement: the left key moves 8 left, the right key 8 right,
      both together cancel out; then the paddle is clamped. */
  function MovePlayer(p: Paddle, held: set<string>, limit: real): (q: Paddle)
    ensures q == p.(x := Clamp(p.x + Steer(held), p.width, limit))
    ensures q.x + q.width <= limit
    ensures p.width <= limit ==> 0.0 <= q.x
  {
    var x1 := if LeftKey in held then p.x - PlayerSpeed else p.x;
    var x2 := if RightKey in held then x1 + PlayerSpeed else x1;
    p.(x := Clamp(x2, p.width, limit))
  }

  function Center(p: Paddle): real {
    p.x + p.width / 2.0
  }

  /** Opponent movement: inside the dead zone around its centre it stays
      put, otherwise it moves 5.5 toward the ball; then it is clamped. */
  function MoveAi(p: Paddle, bx: real, limit: real): (q: Paddle)
    ensures q == p.(x := q.x)
    ensures Center(p) - DeadZone <= bx <= Center(p) + DeadZone ==> q.x == Clamp(p.x, p.width, limit)
    ensures bx > Center(p) + DeadZone ==> q.x == Clamp(p.x + AiSpeed, p.width, limit)
    ensures bx < Center(p) - DeadZone ==> q.x == Clamp(p.x - AiSpeed, p.width, limit)
    ensures q.x + q.width <= limit
    ensures p.width <= limit ==> 0.0 <= q.x
  {
    var diff := bx - Center(p);
    var x1 :=
      if Abs(diff) > DeadZone then
        (if diff > 0.0 then p.x + AiSpeed else p.x - AiSpeed)
      else p.x;
    p.(x := Clamp(x1, p.width, limit))
  }

  /** Outside the dead zone and away from the edges, the opponent's
      distance to the ball shrinks by exactly its speed. */
  lemma AiClosesIn(p: Paddle, bx: real, limit: real)
    requires Abs(bx - Center(p)) > DeadZone
    requires 0.0 <= p.x - AiSpeed && p.x + AiSpeed + p.width <= limit
    ensures Abs(bx - Center(MoveAi(p, bx, limit))) == Abs(bx - Center(p)) - AiSpeed
  {}

  // ---------------------------------------------------------------------
  // Ball
  // ---------------------------------------------------------------------

  /** One Euler step of the ball: the position advances by one velocity,
      and nothing else changes. */
  function MoveBall(b: Ball): (c: Ball)
    ensures c == b.(x := c.x, y := c.y)
    ensures c.x - b.x == b.dx && c.y - b.y == b.dy
  {
    b.(x := b.x + b.dx, y := b.y + b.dy)
  }

  /** The step is reversible: a step with the velocity negated brings the
      ball back to where it started. */
  lemma MoveBallReversible(b: Ball)
    ensures MoveBall(MoveBall(b).(dx := -b.dx, dy := -b.dy)) == b.(dx := -b.dx, dy := -b.dy)
  {}

  function CrossesSide(b: Ball, limit: real): bool {
    b.x - b.radius < 0.0 || b.x + b.radius > limit
  }

  /** Left and right walls. On a surface at least one ball wide the ball
      ends inside and its horizontal velocity flips exactly when it
      crossed a side. On a narrower surface a ball that crossed the left
      side is caught by both walls: it ends at the right wall and the two
      flips cancel. */
  function BounceWalls(b: Ball, limit: real): (c: Ball)
    ensures c == b.(x := c.x, dx := c.dx)
    ensures !CrossesSide(b, limit) ==> c == b
    ensures 2.0 * b.radius <= limit ==> b.radius <= c.x <= limit - b.radius
    ensures 2.0 * b.radius <= limit ==> c.dx == (if CrossesSide(b, limit) then -b.dx else b.dx)
    ensures 2.0 * b.radius > limit && b.x - b.radius < 0.0 ==> c.x == limit - b.radius && c.dx == b.dx
    ensures 2.0 * b.radius <= limit && b.x - b.radius < 0.0 ==> c.x == b.radius
    ensures 2.0 * b.radius <= limit && b.x + b.radius > limit ==> c.x == limit - b.radius
  {
    var c1 := if b.x - b.radius < 0.0 then b.(x := b.radius, dx := b.dx * -1.0) else b;
    if c1.x + c1.radius > limit then c1.(x := limit - c1.radius, dx := c1.dx * -1.0) else c1
  }

  /** On a surface at least one ball wide a bounced ball lies between the
      walls, so bouncing it again changes nothing. */
  lemma BounceWallsSettles(b: Ball, limit: real)
    requires 2.0 * b.radius <= limit
    ensures !CrossesSide(BounceWalls(b, limit), limit)
    ensures BounceWalls(BounceWalls(b, limit), limit) == BounceWalls(b, limit)
  {}

  // ---------------------------------------------------------------------
  // Paddle hits
  // ---------------------------------------------------------------------

  /** The rectangle test both paddles use: the ball's vertical extent
      straddles the paddle and its centre is strictly inside the paddle's
      horizontal extent. */
  predicate Overlaps(b: Ball, p: Paddle) {
    b.y + b.radius > p.y && b.y - b.radius < p.y + p.height &&
    b.x > p.x && b.x < p.x + p.width
  }

  /** Where the ball struck the paddle, from -1 (left end) to 1 (right
      end); the ends themselves never count as a hit. */
  function CollidePoint(b: Ball, p: Paddle): (r: real)
    requires p.x < b.x < p.x + p.width
    ensures -1.0 < r < 1.0
    ensures r < 0.0 <==> b.x < Center(p)
    ensures r == 0.0 <==> b.x == Center(p)
  {
    var half := p.width / 2.0;
    var off := b.x - (p.x + half);
    assert -half < off < half;
    OffsetBounds(off, half);
    off / half
  }

  lemma OffsetBounds(off: real, half: real)
    requires half > 0.0 && -half < off < half
    ensures -1.0 < off / half < 1.0
    ensures off / half < 0.0 <==> off < 0.0
    ensures off / half == 0.0 <==> off == 0.0
  {
    var q := off / half;
    assert q * half == off;
    PositiveFactor(1.0 - q, half);
    PositiveFactor(q + 1.0, half);
  }

  lemma PositiveFactor(a: real, b: real)
    requires b > 0.0 && a * b > 0.0
    ensures a > 0.0
  {}

  /** The further from the centre the ball strikes, the steeper it goes
      back: the collide point never decreases as the ball moves right. */
  lemma CollidePointMonotone(b1: Ball, b2: Ball, p: Paddle)
    requires p.x < b1.x <= b2.x < p.x + p.width
    ensures CollidePoint(b1, p) <= CollidePoint(b2, p)
  {
    var half := p.width / 2.0;
    var o1 := b1.x - (p.x + half);
    var o2 := b2.x - (p.x + half);
    assert o1 <= o2;
    assert o2 / half - o1 / half == (o2 - o1) / half;
  }

  /** The bounce angle: the collide point scaled to at most 45 degrees. */
  function Angle(b: Ball, p: Paddle): (a: real)
    requires p.x < b.x < p.x + p.width
    ensures -Pi / 4.0 < a < Pi / 4.0
  {
    CollidePoint(b, p) * (Pi / 4.0)
  }

  /** The bounce angle grows with the hit point: the further right the
      ball strikes, the further right it goes back. */
  lemma AngleMonotone(b1: Ball, b2: Ball, p: Paddle)
    requires p.x < b1.x <= b2.x < p.x + p.width
    ensures Angle(b1, p) <= Angle(b2, p)
  {
    CollidePointMonotone(b1, b2, p);
  }

  /** Redirects the ball off paddle `p` with its current speed, `dir` being
      -1 (upward) or 1 (downward), speeds it up and moves it to `landing`. */
  function Deflect(b: Ball, p: Paddle, dir: real, landing: real, t: Trig): (c: Ball)
    requires Overlaps(b, p)
    requires dir == 1.0 || dir == -1.0
    ensures c == b.(dx := c.dx, dy := c.dy, speed := c.speed, y := c.y)
    ensures c.speed == b.speed + SpeedUp
    ensures c.y == landing
    ensures Lawful(t) ==> c.dx * c.dx + c.dy * c.dy == b.speed * b.speed
    ensures Lawful(t) && b.speed > 0.0 && dir > 0.0 ==> c.dy > 0.0
    ensures Lawful(t) && b.speed > 0.0 && dir < 0.0 ==> c.dy < 0.0
  {
    var a := Angle(b, p);
    b.(dx := b.speed * t.sin(a), dy := dir * b.speed * t.cos(a),
       speed := b.speed + SpeedUp, y := landing)
  }

  /** The player's paddle at the bottom sends the ball up and sets it one
      pixel above its top edge. */
  function HitPlayer(b: Ball, p: Paddle, t: Trig): (c: Ball)
    ensures !Overlaps(b, p) ==> c == b
    ensures Overlaps(b, p) ==> c.x == b.x && c.radius == b.radius
    ensures Overlaps(b, p) ==> c.speed == b.speed + SpeedUp
    ensures Overlaps(b, p) ==> c.y == p.y - b.radius - 1.0
    ensures Overlaps(b, p) && Lawful(t) ==> c.dx * c.dx + c.dy * c.dy == b.speed * b.speed
    ensures Overlaps(b, p) && Lawful(t) && b.speed > 0.0 ==> c.dy < 0.0
  {
    if Overlaps(b, p) then Deflect(b, p, -1.0, p.y - b.radius - 1.0, t) else b
  }

  /** The opponent's paddle at the top sends the ball down and sets it one
      pixel below its bottom edge. */
  function HitAi(b: Ball, p: Paddle, t: Trig): (c: Ball)
    ensures !Overlaps(b, p) ==> c == b
    ensures Overlaps(b, p) ==> c.x == b.x && c.radius == b.radius
    ensures Overlaps(b, p) ==> c.speed == b.speed + SpeedUp
    ensures Overlaps(b, p) ==> c.y == p.y + p.height + b.radius + 1.0
    ensures Overlaps(b, p) && Lawful(t) ==> c.dx * c.dx + c.dy * c.dy == b.speed * b.speed
    ensures Overlaps(b, p) && Lawful(t) && b.speed > 0.0 ==> c.dy > 0.0
  {
    if Overlaps(b, p) then Deflect(b, p, 1.0, p.y + p.height + b.radius + 1.0, t) else b
  }

  // ---------------------------------------------------------------------
  // Scoring and the whole frame
  // ---------------------------------------------------------------------

  /** Round reset: the ball back at the centre, at rest, at base speed,
      and one relaunch scheduled. */
  function ResetRound(g: Game): (r: Game)
    ensures r == g.(ball := r.ball, pending := r.pending)
    ensures r.pending == g.pending + 1
    ensures r.ball == Ball(g.canvas.W() / 2.0, g.canvas.H() / 2.0, 0.0, 0.0, g.ball.radius, BaseSpeed)
  {
    g.(ball := g.ball.(x := g.canvas.W() / 2.0, y := g.canvas.H() / 2.0,
                       dx := 0.0, dy := 0.0, speed := BaseSpeed),
       pending := g.pending + 1)
  }

  predicate PastTop(b: Ball) {
    b.y - b.radius < 0.0
  }

  predicate PastBottom(b: Ball, c: Canvas) {
    b.y + b.radius > c.H()
  }

  /** The scoring phase: past the top line the player scores, otherwise
      past the bottom line the opponent scores; a point resets the round. */
  function ScorePoint(g: Game): (r: Game)
    ensures r.player.score == g.player.score + 1 <==> PastTop(g.ball)
    ensures r.ai.score == g.ai.score + 1 <==> !PastTop(g.ball) && PastBottom(g.ball, g.canvas)
    ensures r.player.score == g.player.score || r.ai.score == g.ai.score
    ensures r.player.score >= g.player.score && r.ai.score >= g.ai.score
    ensures !PastTop(g.ball) && !PastBottom(g.ball, g.canvas) ==> r == g
    ensures PastTop(g.ball) || PastBottom(g.ball, g.canvas) ==>
              r == g.(ball := r.ball, pending := r.pending,
                      player := g.player.(score := r.player.score),
                      ai := g.ai.(score := r.ai.score))
    ensures PastTop(g.ball) || PastBottom(g.ball, g.canvas) ==>
              r.ball == Ball(g.canvas.W() / 2.0, g.canvas.H() / 2.0, 0.0, 0.0, g.ball.radius, BaseSpeed)
    ensures PastTop(g.ball) || PastBottom(g.ball, g.canvas) ==> r.pending == g.pending + 1
  {
    if PastTop(g.ball) then
      ResetRound(g.(player := g.player.(score := g.player.score + 1)))
    else if PastBottom(g.ball, g.canvas) then
      ResetRound(g.(ai := g.ai.(score := g.ai.score + 1)))
    else g
  }

  /** Paddle shape: everything but x and score. */
  predicate SameShape(p: Paddle, q: Paddle) {
    p.y == q.y && p.width == q.width && p.height == q.height
  }

  /** A paddle lies inside the surface horizontally. */
  predicate InLane(p: Paddle, c: Canvas) {
    0.0 <= p.x && p.x + p.width <= c.W()
  }

  /** Everything in a frame up to, but not including, scoring. */
  function Advance(g: Game, t: Trig): (r: Game)
    ensures r == g.(player := r.player, ai := r.ai, ball := r.ball)
    ensures r.player == MovePlayer(g.player, g.held, g.canvas.W())
    ensures r.ai == MoveAi(g.ai, g.ball.x, g.canvas.W())
    ensures r.ball.radius == g.ball.radius
    ensures r.ball.speed == g.ball.speed || r.ball.speed == g.ball.speed + SpeedUp
         || r.ball.speed == g.ball.speed + 2.0 * SpeedUp
    ensures var w := BounceWalls(MoveBall(g.ball), g.canvas.W());
            !Overlaps(w, r.player) && !Overlaps(w, r.ai) ==> r.ball == w
    ensures 2.0 * g.ball.radius <= g.canvas.W() ==>
              g.ball.radius <= r.ball.x <= g.canvas.W() - g.ball.radius
  {
    var player := MovePlayer(g.player, g.held, g.canvas.W());
    var ai := MoveAi(g.ai, g.ball.x, g.canvas.W());
    var b1 := BounceWalls(MoveBall(g.ball), g.canvas.W());
    var b2 := HitPlayer(b1, player, t);
    var b3 := HitAi(b2, ai, t);
    g.(player := player, ai := ai, ball := b3)
  }

  predicate Scored(g: Game, r: Game) {
    r.player.score + r.ai.score > g.player.score + g.ai.score
  }

  /** One frame. Outside Playing nothing changes. While Playing the
      paddles end inside the surface, at most one score goes up and only
      by one, each point schedules exactly one relaunch and resets the
      ball, and without a point the ball never slows down. */
  function Update(g: Game, t: Trig): (r: Game)
    ensures g.mode != Playing ==> r == g
    ensures r.mode == g.mode && r.canvas == g.canvas && r.held == g.held
    ensures SameShape(r.player, g.player) && SameShape(r.ai, g.ai)
    ensures r.ball.radius == g.ball.radius
    ensures g.mode == Playing ==>
              r.player.x == MovePlayer(g.player, g.held, g.canvas.W()).x &&
              r.ai.x == MoveAi(g.ai, g.ball.x, g.canvas.W()).x
    ensures g.mode == Playing ==> r.player.x + r.player.width <= g.canvas.W()
    ensures g.mode == Playing ==> r.ai.x + r.ai.width <= g.canvas.W()
    ensures g.mode == Playing && g.player.width <= g.canvas.W() ==> 0.0 <= r.player.x
    ensures g.mode == Playing && g.ai.width <= g.canvas.W() ==> 0.0 <= r.ai.x
    ensures r.player.score >= g.player.score && r.ai.score >= g.ai.score
    ensures r.player.score + r.ai.score <= g.player.score + g.ai.score + 1
    ensures r.pending - g.pending == (r.player.score + r.ai.score) - (g.player.score + g.ai.score)
    ensures Scored(g, r) ==> r.ball == Ball(g.canvas.W() / 2.0, g.canvas.H() / 2.0, 0.0, 0.0, g.ball.radius, BaseSpeed)
    ensures !Scored(g, r) ==> r.ball.speed >= g.ball.speed
    ensures g.mode == Playing && !Scored(g, r) ==> r.ball == Advance(g, t).ball
  {
    if g.mode != Playing then g else ScorePoint(Advance(g, t))
  }

  /** A reset ball does not score again on the next frame: on a surface
      at least 80 high with the paddles at their rows, the frame after a
      point (before the relaunch fires) awards nothing. */
  lemma NoDoubleCount(g: Game, t: Trig)
    requires g.mode == Playing
    requires g.canvas.height >= 80
    requires g.ball.radius == 8.0 && g.player.height == 12.0 && g.ai.height == 12.0
    requires g.player.y == g.canvas.H() - 30.0 && g.ai.y == 20.0
    requires Scored(g, Update(g, t))
    ensures !Scored(Update(g, t), Update(Update(g, t), t))
  {}
}

=== FILE: scenarios.dfy ===
/** Concrete frames on an 800 by 600 surface. */
module Scenarios {
  import opened Types
  import opened Physics
  import opened Control

  /** The ball at (450, 570) falling at 5 per frame onto the middle of the
      player's paddle (x 400, width 100, rows 570 to 582): it goes back
      up, one pixel above the paddle at y 561, at speed 7.2. */
  lemma CentreHitOnPlayer(t: Trig)
    requires Lawful(t)
    ensures var g := Game(Playing, Canvas(800, 600),
                          Ball(450.0, 570.0, 0.0, 5.0, 8.0, 7.0),
                          Paddle(400.0, 570.0, 100.0, 12.0, 0),
                          Paddle(350.0, 20.0, 100.0, 12.0, 0),
                          {}, 0);
            var r := Update(g, t);
            r.ball.y == 561.0 && r.ball.speed == 7.2 && r.ball.dy < 0.0 &&
            r.player.score == 0 && r.ai.score == 0
  {}

  /** Starting from the menu on a fresh 800 by 600 surface, Enter serves
      the ball from the centre with dx in (-4, -2] or [2, 4) and dy 5 or -5. */
  lemma EnterServesFromCentre(d: Draws)
    ensures var r := KeyDown(Mount(800, 600), "Enter", d);
            r.mode == Playing && r.ball.x == 400.0 && r.ball.y == 300.0 &&
            r.ball.speed == 7.0 &&
            ((-4.0 < r.ball.dx <= -2.0) || (2.0 <= r.ball.dx < 4.0)) &&
            (r.ball.dy == 5.0 || r.ball.dy == -5.0)
  {}

  /** The ball resting above the top line scores exactly one point for the
      player on a 600-high surface, and the reset ball scores nothing on
      the next frame. */
  lemma TopLineScoresOnce(t: Trig)
    ensures var g := Game(Playing, Canvas(800, 600),
                          Ball(400.0, -1.0, 0.0, 0.0, 8.0, 7.0),
                          Paddle(350.0, 570.0, 100.0, 12.0, 3),
                          Paddle(350.0, 20.0, 100.0, 12.0, 2),
                          {}, 0);
            var r := Update(g, t);
            var r2 := Update(r, t);
            r.player.score == 4 && r.ai.score == 2 && r.pending == 1 &&
            r.ball == Ball(400.0, 300.0, 0.0, 0.0, 8.0, 7.0) &&
            r2.player.score == 4 && r2.ai.score == 2 && r2.pending == 1
  {}

  /** A 40-high surface with the ball resting above the top line. */
  const ShortStart: Game :=
    Game(Playing, Canvas(800, 40),
         Ball(400.0, -1.0, 0.0, 0.0, 8.0, 7.0),
         Paddle(350.0, 10.0, 100.0, 12.0, 0),
         Paddle(350.0, 20.0, 100.0, 12.0, 0),
         {}, 0)

  /** The state after the first point on that surface. */
  const ShortReset: Game :=
    ShortStart.(ball := Ball(400.0, 20.0, 0.0, 0.0, 8.0, 7.0),
                player := ShortStart.player.(score := 1), pending := 1)

  lemma ShortFirstFrame(t: Trig)
    ensures Update(ShortStart, t) == ShortReset
  {
    assert Advance(ShortStart, t) == ShortStart;
  }

  lemma ShortSecondAdvance(t: Trig)
    ensures Advance(ShortReset, t).ball.y == 1.0
    ensures Advance(ShortReset, t).ball.radius == 8.0
    ensures Advance(ShortReset, t) == ShortReset.(ball := Advance(ShortReset, t).ball)
  {
    var g := ShortReset;
    assert MovePlayer(g.player, g.held, 800.0) == g.player;
    assert MoveAi(g.ai, 400.0, 800.0) == g.ai;
    assert BounceWalls(MoveBall(g.ball), 800.0) == g.ball;
    ShortSecondHit(t);
  }

  lemma ShortSecondHit(t: Trig)
    ensures HitPlayer(ShortReset.ball, ShortReset.player, t).y == 1.0
    ensures HitPlayer(ShortReset.ball, ShortReset.player, t).radius == 8.0
    ensures var b := HitPlayer(ShortReset.ball, ShortReset.player, t);
            HitAi(b, ShortReset.ai, t) == b
  {
    assert Overlaps(ShortReset.ball, ShortReset.player);
  }

  lemma ShortSecondFrame(t: Trig)
    ensures Update(ShortReset, t).player.score == 2
    ensures Update(ShortReset, t).pending == 2
  {
    ShortSecondAdvance(t);
  }

  /** On a surface only 40 high a point can be scored on two frames in a
      row: the reset ball lands on the centre row (y 20), which overlaps
      the player's paddle (rows 10 to 22); the hit puts it at y 1, above
      the top line, and the player scores again. */
  lemma ShortSurfaceScoresTwice(t: Trig)
    ensures Valid(ShortStart)
    ensures Update(ShortStart, t).player.score == 1
    ensures Update(Update(ShortStart, t), t).player.score == 2
    ensures Update(Update(ShortStart, t), t).pending == 2
  {
    ShortFirstFrame(t);
    ShortSecondFrame(t);
  }
}

=== FILE: types.dfy ===
/** The records the game loop works on: the ball, the two paddles, the
    drawing surface, the game-state enumeration, and the trigonometry the
    paddle bounce needs. Numbers are exact reals; floating-point rounding
    is not modelled. */
module Types {

  /** The four game states. Only Menu and Playing are ever entered. */
  datatype GameState = Menu | Playing | Paused | GameOver

  datatype Ball = Ball(x: real, y: real, dx: real, dy: real, radius: real, speed: real)

  datatype Paddle = Paddle(x: real, y: real, width: real, height: real, score: nat)

  /** The drawing surface. Its pixel sizes are integers. */
  datatype Canvas = Canvas(width: nat, height: nat) {
    function W(): real { width as real }
    function H(): real { height as real }
  }

  /** Everything one frame reads and writes. `held` is the set of keys
      currently down; `pending` counts relaunches scheduled by a round
      reset that have not fired yet. */
  datatype Game = Game(
    mode: GameState,
    canvas: Canvas,
    ball: Ball,
    player: Paddle,
    ai: Paddle,
    held: set<string>,
    pending: nat)

  /** One pseudo-random draw, in [0, 1) like the browser's generator. */
  type Draw = r: real | 0.0 <= r < 1.0

  /** The three draws one launch consumes, in the order they are made. */
  datatype Draws = Draws(dirX: Draw, dirY: Draw, mag: Draw)

  /** The shortest decimal that reads back as the double `Math.PI`. */
  const Pi: real := 3.141592653589793

  /** Sine and cosine, left uninterpreted. */
  datatype Trig = Trig(sin: real -> real, cos: real -> real)

  /** The only facts about sine and cosine the model relies on. */
  ghost predicate Lawful(t: Trig) {
    (forall a :: t.sin(a) * t.sin(a) + t.cos(a) * t.cos(a) == 1.0) &&
    (forall a :: -Pi / 4.0 < a < Pi / 4.0 ==> t.cos(a) > 0.0)
  }

  function Abs(x: real): real {
    if x < 0.0 then -x else x
  }
}
